=== FILE: README.md ===
# CodeDeploy deployment config resource, modelled in Dafny

This project models the `aws_codedeploy_deployment_config` resource of the
Terraform AWS provider. The resource manages a named CodeDeploy
deployment config: a policy stored by AWS that holds a minimum-healthy-hosts
threshold, a traffic routing rule (canary or linear) and a zonal rollout rule.
The model has two parts.

1. **Expand and flatten.** The mapping between the resource's attribute tree
   and the typed API records. In the tree, every nested block is a list of at
   most one record. In the API, each sub-record is an optional pointer.
   The model keeps a nil list (`Nil`) apart from an empty one (`Items([])`).
   That makes the source's asymmetry visible: `flattenZonalConfig` and
   `flattenMinimumHealthHostsPerZone` return nil for a nil record, and the
   other four flatten functions return an empty list.
2. **The lifecycle.** The create, read and delete callbacks are pure
   functions. Each takes the resource data and the remote responses, and
   returns the new resource data, the error diagnostics and the remote calls
   it made. `ResourceLifecycle` adds the host's rules around the callbacks.
   The result is the absent -> present -> absent state machine over the
   resource id.

Modules, one per file:

- `Wrappers` (`wrappers.dfy`): `Option` stands for a Go pointer. `Result`
  stands for a `(value, error)` pair.
- `GoInts` (`go_ints.dfy`): `int32` and `int64` ranges, Go's `int` as on a 64-bit build,
  and the wrapping conversion `int32(x)`.
- `CodeDeployTypes` (`codedeploy_types.dfy`): the API records.
- `Attributes` (`attributes.dfy`): the attribute tree, plus the schema's
  `MaxItems: 1` and `ConflictsWith` rules as predicates.
- `Mapping` (`mapping.dfy`): the six expand and six flatten functions.
- `RoundTrip` (`round_trip.dfy`): the round trips, the places where they
  break, and the canary/linear exclusion.
- `Lifecycle` (`lifecycle.dfy`): the lookup by name and the three callbacks.
- `ResourceLifecycle` (`resource_lifecycle.dfy`): the host-driven state
  machine and facts about whole traces of it.

Points where the model follows the code:

- The code gives four outcomes of the lookup. An error that is the
  `DeploymentConfigDoesNotExistException` becomes a not-found error. Any other
  error passes through unchanged. A nil output or a nil object becomes an
  empty-result error. Otherwise the object is returned.
- In the provider, an empty-result error is built as a not-found error.
  So read handles it like a missing object, and `FindError.IsNotFound`
  covers both cases. The provider package that builds these errors is not
  part of this model.
- Where expand reads a key with an unchecked type assertion, the model has a
  precondition (`HostsKeysPresent`). This covers `type` and `value` of
  `minimum_healthy_hosts` and of `minimum_healthy_hosts_per_zone`.
- Where expand checks for a key first, an absent key gives the Go zero
  value. This covers the routing `type` and the step `interval` and
  `percentage`.
- `flattenZonalConfig` dereferences both duration pointers without a check.
  So flattening, and any read of a response that has a zonal config,
  requires both durations (`ZonalConfig.HasDurations`).
- Integer values in the attribute tree are Go `int`s, which the model takes
  to be 64-bit, as on the 64-bit builds of the provider. Expand narrows them
  with `int32(...)`, which then wraps around (`ToInt32`).
  Only values in the `int32` range survive a round trip.
- The nil-versus-empty asymmetry is not confined to the zonal path. Four
  flatten functions return an empty list for a nil record (hosts, traffic
  routing, canary, linear). Two return nil: the zonal config and the
  per-zone hosts block nested inside it. The model follows the code.

## Model

| member | source | states |
|---|---|---|
| GoInts.ToInt32 | internal/service/deploy/deployment_config.go:279-282 | the `int32(...)` conversion leaves a value unchanged exactly when it is in the `int32` range, and otherwise keeps it modulo 2^32 |
| Mapping.Int32KeyOrZero | internal/service/deploy/deployment_config.go:312-317 | an absent key becomes 0; a present value is narrowed by `int32(...)`, which keeps it exactly when it is in `int32` range |
| Mapping.ExpandHostsRecord | internal/service/deploy/deployment_config.go:279-282 | copies the type; the value is `int32(...)` of the configured value, so it is kept exactly when it fits in `int32` |
| Mapping.ExpandMinimumHealthyHosts | internal/service/deploy/deployment_config.go:272-285 | nil exactly when the block is unset; otherwise the expansion of its first record (type copied, value narrowed by `int32(...)`) |
| Mapping.ExpandTimeBasedCanary | internal/service/deploy/deployment_config.go:310-319 | interval and percentage are each narrowed by `int32(...)` when present and 0 when absent |
| Mapping.ExpandTimeBasedLinear | internal/service/deploy/deployment_config.go:321-330 | interval and percentage are each narrowed by `int32(...)` when present and 0 when absent |
| Mapping.ExpandTrafficRoutingConfig | internal/service/deploy/deployment_config.go:287-308 | nil exactly when the block is unset. Otherwise the routing type is copied from the first record, or is "" when absent. A canary or linear record is set exactly when its sub-list is non-empty, and is then expanded from that sub-list's first record |
| Mapping.ExpandMinimumHealthyHostsPerZone | internal/service/deploy/deployment_config.go:353-360 | copies the type; the value is `int32(...)` of the configured value, so it is kept exactly when it fits in `int32` |
| Mapping.ExpandZonalConfig | internal/service/deploy/deployment_config.go:332-351 | nil exactly when the block is unset. Otherwise both durations are copied from the first record, and stay nil when their key is missing. The per-zone record is set exactly when its sub-list is non-empty, and is then expanded from that sub-list's first record |
| Mapping.FlattenMinimumHealthHosts | internal/service/deploy/deployment_config.go:362-374 | never nil; empty for a nil record, else exactly one record with type and value copied |
| Mapping.FlattenTrafficRoutingConfig | internal/service/deploy/deployment_config.go:376-389 | never nil; empty for a nil record, else exactly one record carrying the routing type |
| Mapping.FlattenTimeBasedCanary | internal/service/deploy/deployment_config.go:391-402 | never nil; empty for a nil record, else one record with interval and percentage copied |
| Mapping.FlattenTimeBasedLinear | internal/service/deploy/deployment_config.go:404-415 | never nil; empty for a nil record, else one record with interval and percentage copied |
| Mapping.FlattenZonalConfig | internal/service/deploy/deployment_config.go:417-430 | nil exactly for a nil record, else one record whose durations are copied; both durations must be present |
| Mapping.FlattenMinimumHealthHostsPerZone | internal/service/deploy/deployment_config.go:432-444 | nil exactly for a nil record, else exactly one record with type and value copied |
| RoundTrip.ExpandFlattenMinimumHealthyHosts | internal/service/deploy/deployment_config.go:272-285 | flatten then expand gives back any `MinimumHealthyHosts`, and flatten's output is a canonical block |
| RoundTrip.ExpandFlattenTrafficRoutingConfig | internal/service/deploy/deployment_config.go:287-330 | flatten then expand gives back any traffic routing record, including its canary and linear parts |
| RoundTrip.ExpandFlattenZonalConfig | internal/service/deploy/deployment_config.go:332-360 | flatten then expand gives back any zonal record that has both durations |
| RoundTrip.FlattenExpandMinimumHealthyHosts | internal/service/deploy/deployment_config.go:362-374 | expand then flatten is the identity on canonical blocks: never nil, at most one record, both keys present, value in `int32` range |
| RoundTrip.FlattenExpandTrafficRoutingConfig | internal/service/deploy/deployment_config.go:376-415 | expand then flatten is the identity on canonical traffic routing blocks |
| RoundTrip.FlattenExpandTimeBased | internal/service/deploy/deployment_config.go:391-415 | the canary and linear step records survive expand then flatten when canonical |
| RoundTrip.FlattenExpandZonalConfig | internal/service/deploy/deployment_config.go:417-444 | expand then flatten is the identity on zonal blocks that are nil or hold one record with both durations |
| RoundTrip.EmptyBlocksFlattenAsymmetrically | internal/service/deploy/deployment_config.go:362-422 | an empty `zonal_config` list comes back nil (lines 420-421), while an empty `minimum_healthy_hosts` list or a nil `traffic_routing_config` list comes back as an empty list (lines 364-365, 378-379) |
| RoundTrip.NarrowingBreaksRoundTrip | internal/service/deploy/deployment_config.go:281-316 | a value of 2^31 is narrowed to -2^31, so it does not survive expand then flatten, in a hosts block or a canary step |
| RoundTrip.ExpandHostsReadsOnlyFirst | internal/service/deploy/deployment_config.go:272-285 | two hosts blocks with the same first record expand to the same API record |
| RoundTrip.ExpandTrafficReadsOnlyFirst | internal/service/deploy/deployment_config.go:287-308 | two traffic routing blocks with the same first record expand to the same API record |
| RoundTrip.ExpandZonalReadsOnlyFirst | internal/service/deploy/deployment_config.go:332-351 | two zonal blocks with the same first record expand to the same API record |
| RoundTrip.ExpandRespectsConflictsWith | internal/service/deploy/deployment_config.go:84-105 | expand sets both canary and linear exactly when the block breaks the `ConflictsWith` rule, so a conforming block sets at most one |
| Lifecycle.FindDeploymentConfigByName | internal/service/deploy/deployment_config.go:247-270 | sorts the response: the does-not-exist exception becomes not-found, any other error passes through unchanged, a nil output or nil object becomes empty-result, otherwise the object is returned |
| Lifecycle.NotFoundIffRemoteMissing | internal/service/deploy/deployment_config.go:254-267 | the lookup reports not-found exactly when the service has no object: the does-not-exist exception, or no object returned |
| Lifecycle.RefreshedConfig | internal/service/deploy/deployment_config.go:215-226 | platform, id and name are copied from the object. The three blocks are canonical: never-nil hosts and traffic lists, and a nil-or-single zonal list. With the round trips this pins them as the flattening of the object's blocks. The state respects `MaxItems: 1` everywhere and can be expanded again |
| Lifecycle.Read | internal/service/deploy/deployment_config.go:199-229 | one get by id. If the object is missing and the resource is not new, the id is cleared with no error. If it is missing on a new resource, the lookup's not-found error is reported, qualified by the id, and the data is kept. Any other error is reported the same way. If found, every attribute is overwritten from the object |
| Lifecycle.CreateInput | internal/service/deploy/deployment_config.go:179-186 | the request carries the configured name and the configured platform, or `Server` when none is set. Each block sent is exactly the expansion of the configured block, narrowing included, and is sent exactly when that block is set |
| Lifecycle.Create | internal/service/deploy/deployment_config.go:175-197 | issues the create request first. On failure it reports the error and leaves the data (id included) untouched. On success the id becomes the name, one get by that name follows, and its outcome (refreshed attributes, diagnostics) is the create's outcome |
| Lifecycle.Delete | internal/service/deploy/deployment_config.go:231-245 | exactly one delete call keyed by the id; no error exactly when it succeeds, else that error qualified by the id |
| Lifecycle.CreateThenFoundHasNameAsId | internal/service/deploy/deployment_config.go:188-196 | a successful create whose read-back finds the object ends with the name as id and no error |
| Lifecycle.CreateThenMissingIsError | internal/service/deploy/deployment_config.go:194-212 | a successful create whose read-back finds nothing keeps the name as id and reports the lookup's not-found error qualified by that name |
| Lifecycle.ReadClearsIdOnlyWhenMissing | internal/service/deploy/deployment_config.go:203-213 | a read clears the id exactly when the object is missing and the resource is not new; otherwise the id is unchanged |
| Lifecycle.ReadIsFullRefresh | internal/service/deploy/deployment_config.go:215-228 | when the object is found, the outcome of a read does not depend on the attributes held before |
| Lifecycle.ReadThenCreateInputRecoversObject | internal/service/deploy/deployment_config.go:179-186 | expanding the state that a successful read wrote rebuilds the object's platform, name and all three policy blocks |
| Lifecycle.ConformingConfigSendsOneStepKind | internal/service/deploy/deployment_config.go:84-105 | a configuration that obeys the schema (`MaxItems` and `ConflictsWith`) never sends both a canary and a linear record in its create request |
| ResourceLifecycle.ReadKeepsExpandable | internal/service/deploy/deployment_config.go:215-226 | a read of expandable state never leaves state that expand cannot read |
| ResourceLifecycle.Step | internal/service/deploy/deployment_config.go:175-245 | one host-driven callback. A create is built from the planned configuration. The id changes only to empty, or to the planned name by a successful create from absent. An absent resource becomes present only by a successful create. Expandable state stays expandable |
| ResourceLifecycle.Run | internal/service/deploy/deployment_config.go:175-245 | any trace of callbacks keeps expandable state expandable |
| ResourceLifecycle.StepKeepsWithinMaxItems | internal/service/deploy/deployment_config.go:51-170 | one callback keeps every block at most one record long |
| ResourceLifecycle.RunKeepsWithinMaxItems | internal/service/deploy/deployment_config.go:51-170 | every block of the state holds at most one record after any trace, whatever the service returns |
| ResourceLifecycle.PresentOnlyThroughCreate | internal/service/deploy/deployment_config.go:188-194 | an absent resource stays absent through any trace without a successful create |
| ResourceLifecycle.IdComesFromStartOrCreate | internal/service/deploy/deployment_config.go:194-207 | without a successful create, the id at the end of a trace is the starting id or empty |
| ResourceLifecycle.DestroyEndsPresence | internal/service/deploy/deployment_config.go:231-245 | destroying a present resource makes it absent when the delete succeeds, and keeps it present with its id when it fails |
| ResourceLifecycle.CreateThenVanish | internal/service/deploy/deployment_config.go:188-208 | absent -> present -> absent. Creating from a planned configuration and finding the object gives the planned name as id, with no diagnostics. A later refresh that finds the object missing makes it absent, again with no diagnostics |

## Left out

- The remote calls `CreateDeploymentConfig`, `GetDeploymentConfig` and `DeleteDeploymentConfig` are not modelled. Their responses are inputs to the model and their requests are outputs. The `context` and the client taken from `meta` are left out.
- Terraform SDK `ResourceData` behaviour is not modelled: `GetOk` zero-value rules, `Set` type coercion, `SetId`, and the passthrough importer. Blocks are given directly as lists. `d.Get` of an unset string is its zero value or its schema default.
- The flatten functions write `int32` values and `*int64` pointers. The model assumes the SDK stores them as plain integers, so a later expand reads them back as Go `int`s.
- Lifecycle.Read: the error branches for a failed `d.Set` (lines 218-226) are never taken. The model treats every write of a flattened value as succeeding, because those failures come from the SDK's type checks, which are not modelled.
- Enum membership checks (`enum.Validate`) are not modelled. Enumerations are opaque strings.
- Logging and the text of diagnostics are not modelled. A diagnostic keeps the operation, the resource name and the underlying error.
- `ForceNew` and replacement, the `Required`/`Computed` flags, and schema validation itself belong to the host. The `MaxItems` and `ConflictsWith` rules appear only as predicates (`WithinMaxItems`, `ConformsToSchema`, `RoutingConflictFree`).
- The not-found error keeps only the requested name as its last request, not the whole request record.
- ResourceLifecycle: the host rules are stated as assumptions, not taken from the code. These rules are: create only while absent and from the planned configuration carried by the event (which the host has already checked against `MaxItems`), read and delete only while present, the new-resource mark set only during create, and the state dropped after a successful delete.
- GoInts.ToInt32: describes `int32(...)` on a 64-bit Go `int` only. On a 32-bit build `int` is already 32 bits wide and the conversion changes nothing; such builds are not modelled.
- The round-trip lemmas in `RoundTrip` cover only canonical blocks: every key present, values in `int32` range, and zonal records with both durations. Other blocks are described by the expand and flatten contracts alone.

=== FILE: attributes.dfy ===
/** The resource's attribute tree as the provider code sees it: the user's
    configuration on the way in, the refreshed state on the way out. Every
    nested block is a list of at most one record. A scalar key that may be
    missing from its block's map is an `Option`. */
module Attributes {
  import opened Wrappers
  import opened GoInts

  /** A list-valued attribute. `Nil` is a nil slice; `Items` is a non-nil
      slice, possibly empty. Expanding treats a missing key like `Nil`, since
      both fail the "present and non-empty" test. */
  datatype AttrList<T> = Nil | Items(items: seq<T>) {

    function Elements(): seq<T> {
      if Nil? then [] else items
    }

    function Len(): nat {
      |Elements()|
    }

    /** The schema's `MaxItems: 1`. */
    predicate AtMostOne() {
      Len() <= 1
    }
  }

  /** The `{type, value}` block shared by `minimum_healthy_hosts` and
      `minimum_healthy_hosts_per_zone`. */
  datatype HostsAttr = HostsAttr(hostsType: Option<string>, value: Option<GoInt>)

  /** The `{interval, percentage}` block shared by `time_based_canary` and
      `time_based_linear`. */
  datatype TimeBasedAttr = TimeBasedAttr(interval: Option<GoInt>, percentage: Option<GoInt>)

  datatype TrafficRoutingAttr = TrafficRoutingAttr(
    routingType: Option<string>,
    timeBasedCanary: AttrList<TimeBasedAttr>,
    timeBasedLinear: AttrList<TimeBasedAttr>)

  datatype ZonalAttr = ZonalAttr(
    firstZoneMonitorDurationInSeconds: Option<GoInt>,
    minimumHealthyHostsPerZone: AttrList<HostsAttr>,
    monitorDurationInSeconds: Option<GoInt>)

  /** All attributes of one `aws_codedeploy_deployment_config` resource. */
  datatype Config = Config(
    computePlatform: Option<string>,
    deploymentConfigId: Option<string>,
    deploymentConfigName: Option<string>,
    minimumHealthyHosts: AttrList<HostsAttr>,
    trafficRoutingConfig: AttrList<TrafficRoutingAttr>,
    zonalConfig: AttrList<ZonalAttr>)

  // ---------------------------------------------------------------------------
  // Schema rules

  /** `time_based_canary` and `time_based_linear` declare `ConflictsWith` on
      each other: at most one of them may be set. */
  predicate RoutingConflictFree(t: TrafficRoutingAttr) {
    t.timeBasedCanary.Len() == 0 || t.timeBasedLinear.Len() == 0
  }

  predicate TrafficWithinMaxItems(t: TrafficRoutingAttr) {
    t.timeBasedCanary.AtMostOne() && t.timeBasedLinear.AtMostOne()
  }

  predicate ZonalWithinMaxItems(z: ZonalAttr) {
    z.minimumHealthyHostsPerZone.AtMostOne()
  }

  /** Every block, at every depth, holds at most one record. */
  predicate WithinMaxItems(c: Config) {
    && c.minimumHealthyHosts.AtMostOne()
    && c.trafficRoutingConfig.AtMostOne()
    && (forall t | t in c.trafficRoutingConfig.Elements() :: TrafficWithinMaxItems(t))
    && c.zonalConfig.AtMostOne()
    && (forall z | z in c.zonalConfig.Elements() :: ZonalWithinMaxItems(z))
  }

  /** The cardinality and mutual-exclusion rules of the schema. */
  predicate ConformsToSchema(c: Config) {
    && WithinMaxItems(c)
    && (forall t | t in c.trafficRoutingConfig.Elements() :: RoutingConflictFree(t))
  }

  // ---------------------------------------------------------------------------
  // What expanding assumes

  /** Both keys of a `{type, value}` block are present; expanding reads them
      with unchecked type assertions. */
  predicate HostsKeysPresent(h: HostsAttr) {
    h.hostsType.Some? && h.value.Some?
  }

  predicate HostsBlockExpandable(block: AttrList<HostsAttr>) {
    block.Len() > 0 ==> HostsKeysPresent(block.Elements()[0])
  }

  predicate ZonalBlockExpandable(block: AttrList<ZonalAttr>) {
    block.Len() > 0 ==> HostsBlockExpandable(block.Elements()[0].minimumHealthyHostsPerZone)
  }

  /** The configuration can be expanded into a create request without a
      failed type assertion. */
  predicate Expandable(c: Config) {
    HostsBlockExpandable(c.minimumHealthyHosts) && ZonalBlockExpandable(c.zonalConfig)
  }
}

=== FILE: codedeploy_types.dfy ===
/** The typed request and response shapes of the CodeDeploy API that the
    resource exchanges with the remote service. Enumerations are kept as
    opaque strings; optional sub-records (Go pointers) are `Option`s. */
module CodeDeployTypes {
  import opened Wrappers
  import opened GoInts

  /** Default of `compute_platform` in the resource schema. */
  const ComputePlatformServer: string := "Server"

  datatype MinimumHealthyHosts = MinimumHealthyHosts(hostsType: string, value: Int32)

  datatype TimeBasedCanary = TimeBasedCanary(canaryInterval: Int32, canaryPercentage: Int32)

  datatype TimeBasedLinear = TimeBasedLinear(linearInterval: Int32, linearPercentage: Int32)

  datatype TrafficRoutingConfig = TrafficRoutingConfig(
    routingType: string,
    timeBasedCanary: Option<TimeBasedCanary>,
    timeBasedLinear: Option<TimeBasedLinear>)

  datatype MinimumHealthyHostsPerZone = MinimumHealthyHostsPerZone(perZoneType: string, value: Int32)

  datatype ZonalConfig = ZonalConfig(
    firstZoneMonitorDurationInSeconds: Option<Int64>,
    minimumHealthyHostsPerZone: Option<MinimumHealthyHostsPerZone>,
    monitorDurationInSeconds: Option<Int64>)
  {
    /** Both monitor durations are set. Flattening dereferences them without a
        nil check, so a zonal config lacking either cannot be flattened. */
    predicate HasDurations() {
      firstZoneMonitorDurationInSeconds.Some? && monitorDurationInSeconds.Some?
    }
  }

  datatype CreateDeploymentConfigInput = CreateDeploymentConfigInput(
    computePlatform: string,
    deploymentConfigName: string,
    minimumHealthyHosts: Option<MinimumHealthyHosts>,
    trafficRoutingConfig: Option<TrafficRoutingConfig>,
    zonalConfig: Option<ZonalConfig>)

  /** The stored object as the service returns it. */
  datatype DeploymentConfigInfo = DeploymentConfigInfo(
    computePlatform: string,
    deploymentConfigId: Option<string>,
    deploymentConfigName: Option<string>,
    minimumHealthyHosts: Option<MinimumHealthyHosts>,
    trafficRoutingConfig: Option<TrafficRoutingConfig>,
    zonalConfig: Option<ZonalConfig>)
  {
    /** Every part of the object can be flattened into state. */
    predicate Flattenable() {
      zonalConfig.Some? ==> zonalConfig.value.HasDurations()
    }
  }

  datatype GetDeploymentConfigOutput = GetDeploymentConfigOutput(deploymentConfigInfo: Option<DeploymentConfigInfo>)

  /** An error returned by a CodeDeploy call, told apart only by whether it is
      the service's "no such deployment config" exception. */
  datatype ApiError =
    | DeploymentConfigDoesNotExistException(message: string)
    | OtherApiError(code: string, message: string)
}

=== FILE: go_ints.dfy ===
/** The fixed-width integers of the Go runtime the provider is built for. */
module GoInts {

  const Int32Min: int := -0x8000_0000
  const Int32Max: int := 0x7FFF_FFFF
  const Int64Min: int := -0x8000_0000_0000_0000
  const Int64Max: int := 0x7FFF_FFFF_FFFF_FFFF

  /** Number of distinct `int32` values. */
  const Int32Span: int := 0x1_0000_0000

  predicate InInt32(x: int) {
    Int32Min <= x <= Int32Max
  }

  type Int32 = x: int | InInt32(x)

  type Int64 = x: int | Int64Min <= x <= Int64Max

  /** Go's `int` on a 64-bit build; 32-bit builds are not modelled. */
  type GoInt = Int64

  /** Go's conversion `int32(x)`: keeps the low 32 bits as a two's-complement
      value, so it is the identity exactly on the `int32` range. */
  function ToInt32(x: GoInt): (r: Int32)
    ensures InInt32(x) <==> r == x
    ensures (x - r) % Int32Span == 0
  {
    (x - Int32Min) % Int32Span + Int32Min
  }
}

=== FILE: lifecycle.dfy ===
/** The create, read and delete callbacks of the resource and the lookup they
    share. Each remote call is an input (its response) and an output (the
    request issued), so every callback is a pure function from the resource
    data and the remote responses to the new resource data, the diagnostics
    and the calls made. */
module Lifecycle {
  import opened Wrappers
  import opened CodeDeployTypes
  import opened Attributes
  import opened Mapping
  import opened RoundTrip

  /** The outcome of a create or delete call; its output is not used. */
  datatype CallResult = Succeeded | Failed(err: ApiError)

  /** The outcome of `GetDeploymentConfig`: an error, or an output that may
      itself be nil. */
  datatype GetResponse =
    | GetFailed(err: ApiError)
    | GetReturned(output: Option<GetDeploymentConfigOutput>)

  /** Why the lookup by name produced no object. */
  datatype FindError =
    | NotFound(lastError: ApiError, lastRequest: string)
    | EmptyResult(lastRequest: string)
    | LookupFailed(err: ApiError)
  {
    /** The provider's not-found test. An empty result is built as a
        not-found error carrying an "empty result" cause, so it passes too. */
    predicate IsNotFound() {
      NotFound? || EmptyResult?
    }
  }

  /** The per-resource data the host hands to each callback. */
  datatype ResourceData = ResourceData(id: string, isNewResource: bool, config: Config)

  datatype RemoteCall =
    | CreateCall(input: CreateDeploymentConfigInput)
    | GetCall(name: string)
    | DeleteCall(name: string)

  /** An error diagnostic, qualified by the operation and the resource name. */
  datatype Diagnostic =
    | CreateFailed(name: string, cause: ApiError)
    | ReadFailed(id: string, reason: FindError)
    | DeleteFailed(id: string, cause: ApiError)

  datatype Outcome = Outcome(data: ResourceData, diags: seq<Diagnostic>, calls: seq<RemoteCall>)

  /** The object carried by a response, when it carries one. */
  function InfoOf(resp: GetResponse): Option<DeploymentConfigInfo> {
    match resp
    case GetReturned(Some(GetDeploymentConfigOutput(Some(info)))) => Some(info)
    case _ => None
  }

  /** The service has no object of that name: the dedicated exception, or a
      successful call that returned nothing. */
  predicate RemoteMissing(resp: GetResponse) {
    || (resp.GetFailed? && resp.err.DeploymentConfigDoesNotExistException?)
    || (resp.GetReturned? && InfoOf(resp).None?)
  }

  /** Reading this response cannot dereference a nil zonal duration. */
  predicate ReadableResponse(resp: GetResponse) {
    InfoOf(resp).Some? ==> InfoOf(resp).value.Flattenable()
  }

  // ---------------------------------------------------------------------------
  // Lookup

  function FindDeploymentConfigByName(name: string, resp: GetResponse): (r: Result<DeploymentConfigInfo, FindError>)
    ensures r.Success? <==> InfoOf(resp).Some?
    ensures r.Success? ==> r.value == InfoOf(resp).value
    ensures (r.Failure? && r.error.NotFound?)
              <==> (resp.GetFailed? && resp.err.DeploymentConfigDoesNotExistException?)
    ensures r.Failure? && r.error.NotFound? ==> r.error == NotFound(resp.err, name)
    ensures (r.Failure? && r.error.LookupFailed?)
              <==> (resp.GetFailed? && !resp.err.DeploymentConfigDoesNotExistException?)
    ensures r.Failure? && r.error.LookupFailed? ==> r.error.err == resp.err
    ensures (r.Failure? && r.error.EmptyResult?) <==> (resp.GetReturned? && InfoOf(resp).None?)
    ensures r.Failure? && r.error.EmptyResult? ==> r.error.lastRequest == name
  {
    match resp
    case GetFailed(err) =>
      if err.DeploymentConfigDoesNotExistException? then Failure(NotFound(err, name))
      else Failure(LookupFailed(err))
    case GetReturned(output) =>
      if output.None? || output.value.deploymentConfigInfo.None? then Failure(EmptyResult(name))
      else Success(output.value.deploymentConfigInfo.value)
  }

  lemma NotFoundIffRemoteMissing(name: string, resp: GetResponse)
    ensures
      var r := FindDeploymentConfigByName(name, resp);
      (r.Failure? && r.error.IsNotFound()) <==> RemoteMissing(resp)
  {
  }

  // ---------------------------------------------------------------------------
  // Read

  /** The attributes a successful read writes: every field, from the object alone. */
  function RefreshedConfig(info: DeploymentConfigInfo): (c: Config)
    requires info.Flattenable()
    ensures c.computePlatform == Some(info.computePlatform)
    ensures c.deploymentConfigId == info.deploymentConfigId
    ensures c.deploymentConfigName == info.deploymentConfigName
    ensures CanonicalHostsBlock(c.minimumHealthyHosts)
    ensures CanonicalTrafficBlock(c.trafficRoutingConfig)
    ensures CanonicalZonalBlock(c.zonalConfig)
    ensures WithinMaxItems(c)
    ensures Expandable(c)
  {
    Config(
      Some(info.computePlatform),
      info.deploymentConfigId,
      info.deploymentConfigName,
      FlattenMinimumHealthHosts(info.minimumHealthyHosts),
      FlattenTrafficRoutingConfig(info.trafficRoutingConfig),
      FlattenZonalConfig(info.zonalConfig))
  }

  function Read(d: ResourceData, resp: GetResponse): (r: Outcome)
    requires ReadableResponse(resp)
    ensures r.calls == [GetCall(d.id)]
    ensures r.data.isNewResource == d.isNewResource
    ensures RemoteMissing(resp) && !d.isNewResource ==> r.data == d.(id := "") && r.diags == []
    ensures RemoteMissing(resp) && d.isNewResource ==>
              r.data == d && r.diags == [ReadFailed(d.id, FindDeploymentConfigByName(d.id, resp).error)]
    ensures RemoteMissing(resp) && d.isNewResource ==> FindDeploymentConfigByName(d.id, resp).error.IsNotFound()
    ensures resp.GetFailed? && !resp.err.DeploymentConfigDoesNotExistException? ==>
              r.data == d && r.diags == [ReadFailed(d.id, LookupFailed(resp.err))]
    ensures InfoOf(resp).Some? ==>
              r.data.id == d.id && r.diags == [] && r.data.config == RefreshedConfig(InfoOf(resp).value)
  {
    var found := FindDeploymentConfigByName(d.id, resp);
    if !d.isNewResource && found.Failure? && found.error.IsNotFound() then
      Outcome(d.(id := ""), [], [GetCall(d.id)])
    else if found.Failure? then
      Outcome(d, [ReadFailed(d.id, found.error)], [GetCall(d.id)])
    else
      Outcome(d.(config := RefreshedConfig(found.value)), [], [GetCall(d.id)])
  }

  // ---------------------------------------------------------------------------
  // Create

  /** The request built from the configuration: the name as given, the
      platform defaulted, and the three expanded blocks. */
  function CreateInput(c: Config): (input: CreateDeploymentConfigInput)
    requires Expandable(c)
    ensures input.deploymentConfigName == c.deploymentConfigName.GetOr("")
    ensures c.computePlatform.None? ==> input.computePlatform == ComputePlatformServer
    ensures c.computePlatform.Some? ==> input.computePlatform == c.computePlatform.value
    ensures input.minimumHealthyHosts.None? <==> c.minimumHealthyHosts.Len() == 0
    ensures input.trafficRoutingConfig.None? <==> c.trafficRoutingConfig.Len() == 0
    ensures input.zonalConfig.None? <==> c.zonalConfig.Len() == 0
    ensures input.minimumHealthyHosts == ExpandMinimumHealthyHosts(c.minimumHealthyHosts)
    ensures input.trafficRoutingConfig == ExpandTrafficRoutingConfig(c.trafficRoutingConfig)
    ensures input.zonalConfig == ExpandZonalConfig(c.zonalConfig)
  {
    CreateDeploymentConfigInput(
      c.computePlatform.GetOr(ComputePlatformServer),
      c.deploymentConfigName.GetOr(""),
      ExpandMinimumHealthyHosts(c.minimumHealthyHosts),
      ExpandTrafficRoutingConfig(c.trafficRoutingConfig),
      ExpandZonalConfig(c.zonalConfig))
  }

  /** The host marks the data as a new resource before calling create. */
  function Create(d: ResourceData, created: CallResult, resp: GetResponse): (r: Outcome)
    requires d.isNewResource
    requires Expandable(d.config)
    requires ReadableResponse(resp)
    ensures |r.calls| >= 1 && r.calls[0] == CreateCall(CreateInput(d.config))
    ensures created.Failed? ==> r.data == d && r.calls == [CreateCall(CreateInput(d.config))]
    ensures created.Failed? ==> r.diags == [CreateFailed(d.config.deploymentConfigName.GetOr(""), created.err)]
    ensures created.Succeeded? ==> r.data.id == d.config.deploymentConfigName.GetOr("")
    ensures created.Succeeded? ==> r.calls == [CreateCall(CreateInput(d.config)), GetCall(r.data.id)]
    ensures created.Succeeded? ==>
              var read := Read(d.(id := d.config.deploymentConfigName.GetOr("")), resp);
              r.data == read.data && r.diags == read.diags
    ensures created.Succeeded? && InfoOf(resp).Some? ==> r.data.config == RefreshedConfig(InfoOf(resp).value)
  {
    var name := d.config.deploymentConfigName.GetOr("");
    var request := CreateCall(CreateInput(d.config));
    match created
    case Failed(err) =>
      Outcome(d, [CreateFailed(name, err)], [request])
    case Succeeded =>
      var read := Read(d.(id := name), resp);
      Outcome(read.data, read.diags, [request] + read.calls)
  }

  // ---------------------------------------------------------------------------
  // Delete

  function Delete(d: ResourceData, deleted: CallResult): (r: Outcome)
    ensures r.calls == [DeleteCall(d.id)]
    ensures r.data == d
    ensures r.diags == [] <==> deleted.Succeeded?
    ensures deleted.Failed? ==> r.diags == [DeleteFailed(d.id, deleted.err)]
  {
    match deleted
    case Succeeded => Outcome(d, [], [DeleteCall(d.id)])
    case Failed(err) => Outcome(d, [DeleteFailed(d.id, err)], [DeleteCall(d.id)])
  }

  // ---------------------------------------------------------------------------
  // Properties across callbacks

  /** A create that succeeds and finds its object ends with the name as id
      and no error. */
  lemma CreateThenFoundHasNameAsId(d: ResourceData, resp: GetResponse)
    requires d.isNewResource && Expandable(d.config)
    requires InfoOf(resp).Some? && InfoOf(resp).value.Flattenable()
    ensures
      var r := Create(d, Succeeded, resp);
      r.data.id == d.config.deploymentConfigName.GetOr("") && r.diags == []
  {
  }

  /** A create whose read-back finds nothing reports an error and keeps the
      id, rather than silently dropping the resource. */
  lemma CreateThenMissingIsError(d: ResourceData, resp: GetResponse)
    requires d.isNewResource && Expandable(d.config)
    requires RemoteMissing(resp)
    ensures
      var r := Create(d, Succeeded, resp);
      var name := d.config.deploymentConfigName.GetOr("");
      && r.data.id == name
      && r.diags == [ReadFailed(name, FindDeploymentConfigByName(name, resp).error)]
      && r.diags[0].reason.IsNotFound()
  {
  }

  /** A read clears the id exactly when the object is missing and the
      resource was not just created; it never sets a different one. */
  lemma ReadClearsIdOnlyWhenMissing(d: ResourceData, resp: GetResponse)
    requires ReadableResponse(resp)
    requires d.id != ""
    ensures
      var r := Read(d, resp);
      && (r.data.id == "" <==> RemoteMissing(resp) && !d.isNewResource)
      && (r.data.id != "" ==> r.data.id == d.id)
  {
  }

  /** A successful read is a full refresh: what it writes does not depend on
      the attributes held before. */
  lemma ReadIsFullRefresh(d: ResourceData, d': ResourceData, resp: GetResponse)
    requires ReadableResponse(resp)
    requires InfoOf(resp).Some?
    requires d.id == d'.id && d.isNewResource == d'.isNewResource
    ensures Read(d, resp) == Read(d', resp)
  {
  }

  /** Expanding the state written by a successful read rebuilds the object
      that was read: the same name, platform and policy blocks. */
  lemma ReadThenCreateInputRecoversObject(d: ResourceData, resp: GetResponse)
    requires ReadableResponse(resp)
    requires InfoOf(resp).Some?
    ensures Expandable(Read(d, resp).data.config)
    ensures
      var info := InfoOf(resp).value;
      CreateInput(Read(d, resp).data.config)
        == CreateDeploymentConfigInput(
             info.computePlatform, info.deploymentConfigName.GetOr(""),
             info.minimumHealthyHosts, info.trafficRoutingConfig, info.zonalConfig)
  {
  }

  /** A configuration that obeys the schema never sends both a canary and a
      linear step record in its create request. */
  lemma ConformingConfigSendsOneStepKind(c: Config)
    requires Expandable(c) && ConformsToSchema(c)
    ensures
      var t := CreateInput(c).trafficRoutingConfig;
      t.Some? ==> !(t.value.timeBasedCanary.Some? && t.value.timeBasedLinear.Some?)
  {
    if c.trafficRoutingConfig.Len() > 0 {
      assert c.trafficRoutingConfig.Elements()[0] in c.trafficRoutingConfig.Elements();
    }
  }
}

=== FILE: mapping.dfy ===
/** The expand and flatten functions of the deployment config resource:
    expand turns attribute blocks into typed API records, flatten turns API
    records back into attribute blocks. */
module Mapping {
  import opened Wrappers
  import opened GoInts
  import opened CodeDeployTypes
  import opened Attributes

  // ---------------------------------------------------------------------------
  // Expand

  /** An optional integer key narrowed to `int32`, or 0 when the key is absent. */
  function Int32KeyOrZero(v: Option<GoInt>): (r: Int32)
    ensures v.None? ==> r == 0
    ensures v.Some? ==> r == ToInt32(v.value)
    ensures v.Some? ==> (InInt32(v.value) <==> r == v.value)
  {
    match v
    case Some(x) => ToInt32(x)
    case None => 0
  }

  /** A `{type, value}` record with both keys present, as a `MinimumHealthyHosts`. */
  function ExpandHostsRecord(h: HostsAttr): (r: MinimumHealthyHosts)
    requires HostsKeysPresent(h)
    ensures r.hostsType == h.hostsType.value
    ensures r.value == ToInt32(h.value.value)
    ensures InInt32(h.value.value) <==> r.value == h.value.value
  {
    MinimumHealthyHosts(h.hostsType.value, ToInt32(h.value.value))
  }

  /** `minimum_healthy_hosts`: nil when the block is unset, else its first record. */
  function ExpandMinimumHealthyHosts(block: AttrList<HostsAttr>): (r: Option<MinimumHealthyHosts>)
    requires HostsBlockExpandable(block)
    ensures r.None? <==> block.Len() == 0
    ensures r.Some? ==> r.value == ExpandHostsRecord(block.Elements()[0])
  {
    if block.Len() == 0 then None
    else Some(ExpandHostsRecord(block.Elements()[0]))
  }

  function ExpandTimeBasedCanary(a: TimeBasedAttr): (r: TimeBasedCanary)
    ensures r.canaryInterval == Int32KeyOrZero(a.interval)
    ensures r.canaryPercentage == Int32KeyOrZero(a.percentage)
    ensures a.interval.None? ==> r.canaryInterval == 0
    ensures a.percentage.None? ==> r.canaryPercentage == 0
  {
    TimeBasedCanary(Int32KeyOrZero(a.interval), Int32KeyOrZero(a.percentage))
  }

  function ExpandTimeBasedLinear(a: TimeBasedAttr): (r: TimeBasedLinear)
    ensures r.linearInterval == Int32KeyOrZero(a.interval)
    ensures r.linearPercentage == Int32KeyOrZero(a.percentage)
    ensures a.interval.None? ==> r.linearInterval == 0
    ensures a.percentage.None? ==> r.linearPercentage == 0
  {
    TimeBasedLinear(Int32KeyOrZero(a.interval), Int32KeyOrZero(a.percentage))
  }

  /** `traffic_routing_config`: nil when the block is unset; otherwise each
      nested step block is expanded only when its list is non-empty. */
  function ExpandTrafficRoutingConfig(block: AttrList<TrafficRoutingAttr>): (r: Option<TrafficRoutingConfig>)
    ensures r.None? <==> block.Len() == 0
    ensures r.Some? ==> (r.value.timeBasedCanary.Some? <==> block.Elements()[0].timeBasedCanary.Len() > 0)
    ensures r.Some? ==> (r.value.timeBasedLinear.Some? <==> block.Elements()[0].timeBasedLinear.Len() > 0)
    ensures r.Some? ==> r.value.routingType == block.Elements()[0].routingType.GetOr("")
    ensures r.Some? && r.value.timeBasedCanary.Some? ==>
              r.value.timeBasedCanary.value == ExpandTimeBasedCanary(block.Elements()[0].timeBasedCanary.Elements()[0])
    ensures r.Some? && r.value.timeBasedLinear.Some? ==>
              r.value.timeBasedLinear.value == ExpandTimeBasedLinear(block.Elements()[0].timeBasedLinear.Elements()[0])
  {
    if block.Len() == 0 then None
    else
      var t := block.Elements()[0];
      Some(TrafficRoutingConfig(
        t.routingType.GetOr(""),
        if t.timeBasedCanary.Len() > 0 then Some(ExpandTimeBasedCanary(t.timeBasedCanary.Elements()[0])) else None,
        if t.timeBasedLinear.Len() > 0 then Some(ExpandTimeBasedLinear(t.timeBasedLinear.Elements()[0])) else None))
  }

  function ExpandMinimumHealthyHostsPerZone(h: HostsAttr): (r: MinimumHealthyHostsPerZone)
    requires HostsKeysPresent(h)
    ensures r.perZoneType == h.hostsType.value
    ensures r.value == ToInt32(h.value.value)
    ensures InInt32(h.value.value) <==> r.value == h.value.value
  {
    MinimumHealthyHostsPerZone(h.hostsType.value, ToInt32(h.value.value))
  }

  /** `zonal_config`: nil when the block is unset. The two durations are
      widened to `int64` (no change on a 64-bit `int`); the per-zone block is
      expanded only when its list is non-empty. */
  function ExpandZonalConfig(block: AttrList<ZonalAttr>): (r: Option<ZonalConfig>)
    requires ZonalBlockExpandable(block)
    ensures r.None? <==> block.Len() == 0
    ensures r.Some? ==> (r.value.minimumHealthyHostsPerZone.Some? <==> block.Elements()[0].minimumHealthyHostsPerZone.Len() > 0)
    ensures r.Some? ==> r.value.firstZoneMonitorDurationInSeconds == block.Elements()[0].firstZoneMonitorDurationInSeconds
    ensures r.Some? ==> r.value.monitorDurationInSeconds == block.Elements()[0].monitorDurationInSeconds
    ensures r.Some? && r.value.minimumHealthyHostsPerZone.Some? ==>
              r.value.minimumHealthyHostsPerZone.value
                == ExpandMinimumHealthyHostsPerZone(block.Elements()[0].minimumHealthyHostsPerZone.Elements()[0])
  {
    if block.Len() == 0 then None
    else
      var z := block.Elements()[0];
      Some(ZonalConfig(
        z.firstZoneMonitorDurationInSeconds,
        if z.minimumHealthyHostsPerZone.Len() > 0
        then Some(ExpandMinimumHealthyHostsPerZone(z.minimumHealthyHostsPerZone.Elements()[0]))
        else None,
        z.monitorDurationInSeconds))
  }

  // ---------------------------------------------------------------------------
  // Flatten

  /** Never nil: an empty list for a nil record, else one record with both keys. */
  function FlattenMinimumHealthHosts(hosts: Option<MinimumHealthyHosts>): (r: AttrList<HostsAttr>)
    ensures r.Items?
    ensures r.Len() == 0 <==> hosts.None?
    ensures r.AtMostOne()
    ensures hosts.Some? ==> r.items[0] == HostsAttr(Some(hosts.value.hostsType), Some(hosts.value.value))
  {
    match hosts
    case None => Items([])
    case Some(h) => Items([HostsAttr(Some(h.hostsType), Some(h.value))])
  }

  function FlattenTimeBasedCanary(canary: Option<TimeBasedCanary>): (r: AttrList<TimeBasedAttr>)
    ensures r.Items?
    ensures r.Len() == 0 <==> canary.None?
    ensures r.AtMostOne()
    ensures canary.Some? ==> r.items[0] == TimeBasedAttr(Some(canary.value.canaryInterval), Some(canary.value.canaryPercentage))
  {
    match canary
    case None => Items([])
    case Some(c) => Items([TimeBasedAttr(Some(c.canaryInterval), Some(c.canaryPercentage))])
  }

  function FlattenTimeBasedLinear(linear: Option<TimeBasedLinear>): (r: AttrList<TimeBasedAttr>)
    ensures r.Items?
    ensures r.Len() == 0 <==> linear.None?
    ensures r.AtMostOne()
    ensures linear.Some? ==> r.items[0] == TimeBasedAttr(Some(linear.value.linearInterval), Some(linear.value.linearPercentage))
  {
    match linear
    case None => Items([])
    case Some(l) => Items([TimeBasedAttr(Some(l.linearInterval), Some(l.linearPercentage))])
  }

  function FlattenTrafficRoutingConfig(config: Option<TrafficRoutingConfig>): (r: AttrList<TrafficRoutingAttr>)
    ensures r.Items?
    ensures r.Len() == 0 <==> config.None?
    ensures r.AtMostOne()
    ensures config.Some? ==> r.items[0].routingType == Some(config.value.routingType)
  {
    match config
    case None => Items([])
    case Some(c) =>
      Items([TrafficRoutingAttr(
        Some(c.routingType),
        FlattenTimeBasedCanary(c.timeBasedCanary),
        FlattenTimeBasedLinear(c.timeBasedLinear))])
  }

  /** Unlike the four flatten functions above, nil for a nil record. */
  function FlattenMinimumHealthHostsPerZone(config: Option<MinimumHealthyHostsPerZone>): (r: AttrList<HostsAttr>)
    ensures r.Nil? <==> config.None?
    ensures r.Items? ==> r.items == [HostsAttr(Some(config.value.perZoneType), Some(config.value.value))]
  {
    match config
    case None => Nil
    case Some(p) => Items([HostsAttr(Some(p.perZoneType), Some(p.value))])
  }

  /** Nil for a nil record. The two durations are dereferenced unchecked, so
      a present zonal config must carry both. */
  function FlattenZonalConfig(config: Option<ZonalConfig>): (r: AttrList<ZonalAttr>)
    requires config.Some? ==> config.value.HasDurations()
    ensures r.Nil? <==> config.None?
    ensures r.Items? ==> |r.items| == 1
    ensures r.Items? ==> r.items[0].firstZoneMonitorDurationInSeconds == config.value.firstZoneMonitorDurationInSeconds
    ensures r.Items? ==> r.items[0].monitorDurationInSeconds == config.value.monitorDurationInSeconds
  {
    match config
    case None => Nil
    case Some(z) =>
      Items([ZonalAttr(
        Some(z.firstZoneMonitorDurationInSeconds.value),
        FlattenMinimumHealthHostsPerZone(z.minimumHealthyHostsPerZone),
        Some(z.monitorDurationInSeconds.value))])
  }
}

=== FILE: resource_lifecycle.dfy ===
/** The absent -> present -> absent life of one resource as the host drives
    the callbacks: create only while absent and from the planned
    configuration, read and delete only while present, the new-resource mark
    only during create, and the state dropped after a successful delete. A resource is present exactly when its id is
    non-empty. */
module ResourceLifecycle {
  import opened Wrappers
  import opened CodeDeployTypes
  import opened Attributes
  import opened Lifecycle

  /** One callback invocation, carrying the remote responses it will see.
      A create also carries the planned configuration it is built from. */
  datatype Event =
    | Apply(planned: Config, created: CallResult, readBack: GetResponse)
    | Refresh(resp: GetResponse)
    | Destroy(deleted: CallResult)

  predicate Present(d: ResourceData) {
    d.id != ""
  }

  /** The responses can be read, and a planned configuration has passed the
      host's `MaxItems` check and carries every key expand asserts. */
  predicate EventAdmissible(e: Event) {
    match e
    case Apply(planned, _, resp) => Expandable(planned) && WithinMaxItems(planned) && ReadableResponse(resp)
    case Refresh(resp) => ReadableResponse(resp)
    case Destroy(_) => true
  }

  predicate AllAdmissible(events: seq<Event>) {
    forall i | 0 <= i < |events| :: EventAdmissible(events[i])
  }

  /** A successful create call. */
  predicate CreatesObject(e: Event) {
    e.Apply? && e.created.Succeeded?
  }

  lemma ReadKeepsExpandable(d: ResourceData, resp: GetResponse)
    requires ReadableResponse(resp)
    ensures Expandable(d.config) ==> Expandable(Read(d, resp).data.config)
  {
  }

  /** One callback as the host drives it. State that expand can read stays
      so; a create expands only the planned configuration. */
  function Step(d: ResourceData, e: Event): (r: ResourceData)
    requires EventAdmissible(e)
    ensures Expandable(d.config) ==> Expandable(r.config)
    ensures !r.isNewResource
    ensures r.id != d.id ==>
              r.id == "" || (CreatesObject(e) && !Present(d) && r.id == e.planned.deploymentConfigName.GetOr(""))
    ensures Present(r) && !Present(d) ==> CreatesObject(e)
    ensures CreatesObject(e) && !Present(d) ==> r.id == e.planned.deploymentConfigName.GetOr("")
    ensures e.Apply? && !Present(d) ==> Expandable(r.config)
  {
    var d0 := d.(isNewResource := false);
    match e
    case Apply(planned, created, resp) =>
      if Present(d) then d0
      else
        var r := Create(d.(config := planned, isNewResource := true), created, resp);
        ReadKeepsExpandable(d.(config := planned, isNewResource := true, id := planned.deploymentConfigName.GetOr("")), resp);
        r.data.(isNewResource := false)
    case Refresh(resp) =>
      if Present(d) then
        ReadKeepsExpandable(d0, resp);
        Read(d0, resp).data
      else d0
    case Destroy(deleted) =>
      if Present(d) && deleted.Succeeded? then Delete(d0, deleted).data.(id := "")
      else d0
  }

  function Run(d: ResourceData, events: seq<Event>): (r: ResourceData)
    requires AllAdmissible(events)
    ensures Expandable(d.config) ==> Expandable(r.config)
    decreases |events|
  {
    if events == [] then d
    else
      assert EventAdmissible(events[0]);
      Run(Step(d, events[0]), events[1..])
  }

  lemma StepKeepsWithinMaxItems(d: ResourceData, e: Event)
    requires EventAdmissible(e)
    requires WithinMaxItems(d.config)
    ensures WithinMaxItems(Step(d, e).config)
  {
  }

  /** Every block of the state keeps at most one record, whatever the
      service returns along the way. */
  lemma {:induction false} RunKeepsWithinMaxItems(d: ResourceData, events: seq<Event>)
    requires AllAdmissible(events)
    requires WithinMaxItems(d.config)
    ensures WithinMaxItems(Run(d, events).config)
    decreases |events|
  {
    if events != [] {
      assert EventAdmissible(events[0]);
      StepKeepsWithinMaxItems(d, events[0]);
      RunKeepsWithinMaxItems(Step(d, events[0]), events[1..]);
    }
  }

  /** An absent resource becomes present only through a successful create. */
  lemma {:induction false} PresentOnlyThroughCreate(d: ResourceData, events: seq<Event>)
    requires AllAdmissible(events)
    requires !Present(d)
    requires forall i | 0 <= i < |events| :: !CreatesObject(events[i])
    ensures !Present(Run(d, events))
    decreases |events|
  {
    if events != [] {
      assert EventAdmissible(events[0]) && !CreatesObject(events[0]);
      PresentOnlyThroughCreate(Step(d, events[0]), events[1..]);
    }
  }

  /** Without a successful create, the id of a resource only ever stays as
      it was or becomes empty: it never drifts to some other value. */
  lemma {:induction false} IdComesFromStartOrCreate(d: ResourceData, events: seq<Event>)
    requires AllAdmissible(events)
    requires forall i | 0 <= i < |events| :: !CreatesObject(events[i])
    ensures Run(d, events).id == d.id || Run(d, events).id == ""
    decreases |events|
  {
    if events != [] {
      assert EventAdmissible(events[0]) && !CreatesObject(events[0]);
      var d' := Step(d, events[0]);
      IdComesFromStartOrCreate(d', events[1..]);
      if Run(d', events[1..]).id == d'.id && d'.id != d.id {
        assert d'.id == "";
      }
    }
  }

  /** Destroying a present resource: success makes it absent, failure keeps
      it present with the same id. */
  lemma DestroyEndsPresence(d: ResourceData, err: ApiError)
    requires Present(d)
    ensures !Present(Step(d, Destroy(Succeeded)))
    ensures Step(d, Destroy(Failed(err))).id == d.id
  {
  }

  /** The full life: created and found, then found missing by a later
      refresh, after which it is absent again without an error. */
  lemma CreateThenVanish(d: ResourceData, planned: Config, info: DeploymentConfigInfo, message: string)
    requires !Present(d)
    requires Expandable(planned) && WithinMaxItems(planned)
    requires info.Flattenable()
    requires planned.deploymentConfigName.GetOr("") != ""
    ensures
      var found := GetReturned(Some(GetDeploymentConfigOutput(Some(info))));
      var d1 := Step(d, Apply(planned, Succeeded, found));
      var missing := GetFailed(DeploymentConfigDoesNotExistException(message));
      && Present(d1) && d1.id == planned.deploymentConfigName.value
      && Create(d.(config := planned, isNewResource := true), Succeeded, found).diags == []
      && !Present(Step(d1, Refresh(missing)))
      && Read(d1, missing).diags == []
  {
  }
}

=== FILE: round_trip.dfy ===
/** How expand and flatten invert each other, where they do not, and the
    schema's mutual-exclusion rule seen through expand. */
module RoundTrip {
  import opened Wrappers
  import opened GoInts
  import opened CodeDeployTypes
  import opened Attributes
  import opened Mapping

  // ---------------------------------------------------------------------------
  // The shapes flatten produces

  /** A `{type, value}` record as flatten writes it: both keys, an `int32` value. */
  predicate CanonicalHosts(h: HostsAttr) {
    h.hostsType.Some? && h.value.Some? && InInt32(h.value.value)
  }

  predicate CanonicalTimeBased(a: TimeBasedAttr) {
    && a.interval.Some? && InInt32(a.interval.value)
    && a.percentage.Some? && InInt32(a.percentage.value)
  }

  /** A never-nil list of at most one canonical `{type, value}` record. */
  predicate CanonicalHostsBlock(block: AttrList<HostsAttr>) {
    block.Items? && (|block.items| == 0 || (|block.items| == 1 && CanonicalHosts(block.items[0])))
  }

  predicate CanonicalTimeBasedBlock(block: AttrList<TimeBasedAttr>) {
    block.Items? && (|block.items| == 0 || (|block.items| == 1 && CanonicalTimeBased(block.items[0])))
  }

  predicate CanonicalTraffic(t: TrafficRoutingAttr) {
    && t.routingType.Some?
    && CanonicalTimeBasedBlock(t.timeBasedCanary)
    && CanonicalTimeBasedBlock(t.timeBasedLinear)
  }

  predicate CanonicalTrafficBlock(block: AttrList<TrafficRoutingAttr>) {
    block.Items? && (|block.items| == 0 || (|block.items| == 1 && CanonicalTraffic(block.items[0])))
  }

  /** The per-zone list as flatten writes it: nil, or exactly one canonical record. */
  predicate CanonicalPerZoneBlock(block: AttrList<HostsAttr>) {
    block.Nil? || (|block.items| == 1 && CanonicalHosts(block.items[0]))
  }

  predicate CanonicalZonal(z: ZonalAttr) {
    && z.firstZoneMonitorDurationInSeconds.Some?
    && z.monitorDurationInSeconds.Some?
    && CanonicalPerZoneBlock(z.minimumHealthyHostsPerZone)
  }

  /** The zonal list as flatten writes it: nil, or exactly one canonical record. */
  predicate CanonicalZonalBlock(block: AttrList<ZonalAttr>) {
    block.Nil? || (|block.items| == 1 && CanonicalZonal(block.items[0]))
  }

  // ---------------------------------------------------------------------------
  // API record -> attributes -> API record

  lemma ExpandFlattenMinimumHealthyHosts(hosts: Option<MinimumHealthyHosts>)
    ensures CanonicalHostsBlock(FlattenMinimumHealthHosts(hosts))
    ensures ExpandMinimumHealthyHosts(FlattenMinimumHealthHosts(hosts)) == hosts
  {
  }

  lemma ExpandFlattenTrafficRoutingConfig(config: Option<TrafficRoutingConfig>)
    ensures CanonicalTrafficBlock(FlattenTrafficRoutingConfig(config))
    ensures ExpandTrafficRoutingConfig(FlattenTrafficRoutingConfig(config)) == config
  {
  }

  lemma ExpandFlattenZonalConfig(config: Option<ZonalConfig>)
    requires config.Some? ==> config.value.HasDurations()
    ensures CanonicalZonalBlock(FlattenZonalConfig(config))
    ensures ExpandZonalConfig(FlattenZonalConfig(config)) == config
  {
  }

  // ---------------------------------------------------------------------------
  // Attributes -> API record -> attributes

  lemma FlattenExpandMinimumHealthyHosts(block: AttrList<HostsAttr>)
    requires CanonicalHostsBlock(block)
    ensures FlattenMinimumHealthHosts(ExpandMinimumHealthyHosts(block)) == block
  {
  }

  lemma FlattenExpandTrafficRoutingConfig(block: AttrList<TrafficRoutingAttr>)
    requires CanonicalTrafficBlock(block)
    ensures FlattenTrafficRoutingConfig(ExpandTrafficRoutingConfig(block)) == block
  {
    if block.Len() > 0 {
      var t := block.items[0];
      assert block.items == [t];
      FlattenExpandTimeBased(t.timeBasedCanary);
      FlattenExpandTimeBased(t.timeBasedLinear);
    }
  }

  /** The step-record half of the traffic routing round trip. */
  lemma FlattenExpandTimeBased(block: AttrList<TimeBasedAttr>)
    requires CanonicalTimeBasedBlock(block)
    ensures block.Len() > 0 ==> FlattenTimeBasedCanary(Some(ExpandTimeBasedCanary(block.items[0]))) == block
    ensures block.Len() > 0 ==> FlattenTimeBasedLinear(Some(ExpandTimeBasedLinear(block.items[0]))) == block
    ensures block.Len() == 0 ==> FlattenTimeBasedCanary(None) == block && FlattenTimeBasedLinear(None) == block
  {
  }

  lemma FlattenExpandZonalConfig(block: AttrList<ZonalAttr>)
    requires CanonicalZonalBlock(block)
    ensures FlattenZonalConfig(ExpandZonalConfig(block)) == block
  {
    if block.Items? {
      var z := block.items[0];
      assert block.items == [z];
      if z.minimumHealthyHostsPerZone.Items? {
        var p := z.minimumHealthyHostsPerZone.items[0];
        assert z.minimumHealthyHostsPerZone.items == [p];
      }
    }
  }

  // ---------------------------------------------------------------------------
  // Where the round trip breaks

  /** An empty `zonal_config` list comes back nil, while an empty
      `minimum_healthy_hosts` list and a nil `traffic_routing_config` list
      come back empty. */
  lemma EmptyBlocksFlattenAsymmetrically()
    ensures FlattenZonalConfig(ExpandZonalConfig(Items([]))) == Nil
    ensures FlattenMinimumHealthHosts(ExpandMinimumHealthyHosts(Items([]))) == Items([])
    ensures FlattenTrafficRoutingConfig(ExpandTrafficRoutingConfig(Nil)) == Items([])
  {
  }

  /** A value just above the `int32` range is narrowed to the most negative
      `int32` and does not survive expand then flatten, in a hosts block and
      in a canary step alike. */
  lemma NarrowingBreaksRoundTrip(hostsType: string, routingType: string)
    ensures
      var block := Items([HostsAttr(Some(hostsType), Some(Int32Max + 1))]);
      FlattenMinimumHealthHosts(ExpandMinimumHealthyHosts(block))
        == Items([HostsAttr(Some(hostsType), Some(Int32Min))])
    ensures
      var step := Items([TimeBasedAttr(Some(Int32Max + 1), Some(10))]);
      var block := Items([TrafficRoutingAttr(Some(routingType), step, Items([]))]);
      FlattenTrafficRoutingConfig(ExpandTrafficRoutingConfig(block))
        == Items([TrafficRoutingAttr(Some(routingType), Items([TimeBasedAttr(Some(Int32Min), Some(10))]), Items([]))])
  {
  }

  /** Expanding `minimum_healthy_hosts` reads only its first record. */
  lemma ExpandHostsReadsOnlyFirst(block: AttrList<HostsAttr>, block': AttrList<HostsAttr>)
    requires HostsBlockExpandable(block) && HostsBlockExpandable(block')
    requires block.Len() > 0 && block'.Len() > 0 && block.Elements()[0] == block'.Elements()[0]
    ensures ExpandMinimumHealthyHosts(block) == ExpandMinimumHealthyHosts(block')
  {
  }

  /** Expanding `traffic_routing_config` reads only its first record. */
  lemma ExpandTrafficReadsOnlyFirst(block: AttrList<TrafficRoutingAttr>, block': AttrList<TrafficRoutingAttr>)
    requires block.Len() > 0 && block'.Len() > 0 && block.Elements()[0] == block'.Elements()[0]
    ensures ExpandTrafficRoutingConfig(block) == ExpandTrafficRoutingConfig(block')
  {
  }

  /** Expanding `zonal_config` reads only its first record. */
  lemma ExpandZonalReadsOnlyFirst(block: AttrList<ZonalAttr>, block': AttrList<ZonalAttr>)
    requires ZonalBlockExpandable(block) && ZonalBlockExpandable(block')
    requires block.Len() > 0 && block'.Len() > 0 && block.Elements()[0] == block'.Elements()[0]
    ensures ExpandZonalConfig(block) == ExpandZonalConfig(block')
  {
  }

  // ---------------------------------------------------------------------------
  // Mutual exclusion of canary and linear routing

  /** Expand sets both step records exactly when the configuration breaks the
      `ConflictsWith` rule, so a conforming configuration yields at most one. */
  lemma ExpandRespectsConflictsWith(block: AttrList<TrafficRoutingAttr>)
    ensures
      var r := ExpandTrafficRoutingConfig(block);
      (r.Some? && r.value.timeBasedCanary.Some? && r.value.timeBasedLinear.Some?)
        <==> (block.Len() > 0 && !RoutingConflictFree(block.Elements()[0]))
  {
  }
}

=== FILE: wrappers.dfy ===
/** Optional values and results, the Dafny stand-ins for Go's nil pointers and
    `(value, error)` returns. */
module Wrappers {

  /** A Go pointer: `None` is nil, `Some(v)` points at `v`. */
  datatype Option<+T> = None | Some(value: T) {

    /** The pointed-to value, or `default` when nil. */
    function GetOr(default: T): T {
      match this
      case Some(v) => v
      case None => default
    }
  }

  /** A Go `(value, error)` pair where exactly one side is meaningful. */
  datatype Result<+R, +E> = Success(value: R) | Failure(error: E)
}
